=== FILE: README.md ===
# Storage daemon request runtime — a Dafny model

This project models the core of the storm storage daemon (`stored`): a
single-process service that keeps named tables of 32-byte keys to chunk
bytes in an embedded engine (sled), and answers one reply for every request
it receives. The model covers

- the table registry and the five request handlers of the runtime
  (`Use`, `Tables`, `Count`, `Store`, `Retrieve`), the dispatch of a decoded
  request, the conversion of every success or error into exactly one reply,
  and the receive/reply loop (module `Service`, with its multi-request
  properties in `ServiceProperties`);
- the older content-addressed runtime, which files each chunk under its own
  commitment and has no request that opens tables (module `StoredService`);
- the engine as two separate pieces of state — the on-disk map of tree name
  to tree contents, and the runtime's registry of opened names — together
  with start-up (module `Storage`);
- the reply taxonomy with its fixed wire type tags, the conversion of a
  decoding error into a reply, and the client's success/failure
  classification (module `Replies`);
- the daemon's failure codes and their conversions into the RPC framework's
  failure types (module `FailureCodes`).

Everything is a pure function over immutable values. A handler takes the
state and returns the new state with a `Result`; `Service.Run` is the step
`state × message → state × reply`. The commitment function
(`consensus_commit`), the check that stored bytes form a valid chunk
(`Chunk::try_from`) and the daemon's error-to-reply conversion are not
visible, so they are fields of `Storage.Env` and every property holds for
any choice of them. A received message is modelled as its decoding result
(`Result<Request, PresentationError>`), and a sent reply as an output value.

The request type is built from the match arms of the runtime's dispatcher
(src/service.rs:126-132). rpc/src/request.rs declares only a `NoOp`
variant, which the runtime could not dispatch on; the model follows the
runtime.

## Model

| member | source | states |
|---|---|---|
| FailureCodes.Discriminant | rpc/src/error.rs:17-27 | `Unknown`, `Database` and `Encoding` have the values 0xFFF, 0x01 and 0x02, in both directions |
| FailureCodes.DiscriminantInjective | rpc/src/error.rs:37-39 | converting a code to `u16` is injective: equal values mean equal codes |
| FailureCodes.FromU16 | rpc/src/error.rs:29-35 | every `u16`, including the three discriminants, decodes to `Unknown` |
| FailureCodes.FromU16RoundTrip | rpc/src/error.rs:29-39 | decoding an encoded code gives it back exactly when the code is `Unknown` |
| FailureCodes.ToRpcCode | rpc/src/error.rs:41-43 | a code becomes the framework's `Other` code wrapping that same code |
| FailureCodes.ToRpcFailure | rpc/src/error.rs:45-52 | a code becomes a failure whose code is `Other(code)` and whose text is the code's display text |
| FailureCodes.RpcFailureDeterminesCode | rpc/src/error.rs:45-52 | two codes give the same failure only if they are the same code |
| FailureCodes.ToServerError | rpc/src/error.rs:54-56 | a code becomes a client-side server failure carrying the failure built from that code |
| Replies.VariantOfTag | rpc/src/reply.rs:28-63 | a tag read back names a variant whose tag it is, or is rejected |
| Replies.TagRoundTrip | rpc/src/reply.rs:31-61 | every variant's tag reads back as that same variant |
| Replies.TagInjective | rpc/src/reply.rs:31-61 | the eight tags are pairwise distinct, so a tag determines its variant |
| Replies.ReplyTagIdentifiesVariant | rpc/src/reply.rs:28-63 | the tag a reply is sent with reads back as its variant, and replies of different variants carry different tags |
| Replies.KnownTags | rpc/src/reply.rs:31-61 | exactly the eight listed tags name a variant |
| Replies.FromPresentation | rpc/src/reply.rs:67-74 | a decoding error becomes a `Failure` with the presentation code and the error's text |
| Replies.SuccessOrFailure | rpc/src/reply.rs:77-83 | `Ok` exactly for `Success`; a `Failure` yields a server failure carrying it unchanged; any other reply is an unexpected response |
| Replies.FailureReplyClassified | rpc/src/error.rs:45-56 | a failure reply built from a code is classified as the server error built from that code |
| Replies.PresentationReplyClassified | rpc/src/reply.rs:67-81 | a decoding-error reply reaches the client as a server failure with the presentation code and text |
| Storage.OpenTree | src/service.rs:137 | opening a tree keeps an existing tree's data and creates an empty one for a new name |
| Storage.InitDb | src/service.rs:78-88 | the registry after start-up is exactly the configured set; each configured name has a tree, empty unless it was on disk; no tree on disk is lost |
| Storage.InitRegistryIndependentOfDisk | src/service.rs:83-87 | the registry after start-up does not depend on what the store already held |
| Storage.OpenAllMatchesInit | src/service.rs:83-87 | opening the configured names one by one, in any iteration order, gives the start-up store |
| Service.UseTable | src/service.rs:136-140 | `Use(t)` replies `Success`, adds `t` to the registry, keeps every existing tree, and creates `t` empty only when absent |
| Service.ListTables | src/service.rs:142-145 | `Tables` replies with exactly the registered names |
| Service.CountTable | src/service.rs:147-151 | `Count(t)` is the number of distinct keys of a registered tree, and `UnknownTable(t)` otherwise |
| Service.StoreChunk | src/service.rs:153-159 | `Store(t,k,c)` replies with the commitment of `c` whatever `k` is, writes only `k ↦ bytes of c` in `t`, and fails with `UnknownTable(t)` without change for an unregistered name |
| Service.RetrieveChunk | src/service.rs:161-167 | `Retrieve(t,k)` gives the stored chunk, `KeyAbsent` with the same key, an encoding error for bytes that are no chunk, or `UnknownTable(t)` |
| Service.Dispatch | src/service.rs:126-132 | routing keeps the registry valid, never shrinks it, and an erroring handler leaves the state untouched |
| Service.RpcProcess | src/service.rs:122-134 | a decoding failure becomes the presentation failure reply without reaching a handler; a handler error `e` becomes `Failure` with the daemon's conversion of `e`, with the state untouched |
| Service.Run | src/service.rs:109-118 | one message yields one reply; a `Failure` reply means the state is unchanged; the registry only grows |
| Service.RunAll | src/service.rs:95-104 | a sequence of messages yields exactly one reply per message, and the registry never shrinks |
| Service.Received | src/service.rs:109-111 | the messages the loop receives are those of the exchanges before the first failed receive, in order; all of them when no receive fails |
| Service.ServeLoop | src/service.rs:95-118 | the loop stops only at a failed receive or send, at the first one; with none, every message is answered |
| ServiceProperties.TablesAfterInit | src/service.rs:83-87 | right after start-up, `Tables` lists exactly the configured names |
| ServiceProperties.UnknownTableRejected | src/service.rs:147-162 | `Count`, `Store` and `Retrieve` on an unregistered name reply the `UnknownTable(name)` failure and change nothing |
| ServiceProperties.RetrieveUndecodableFails | src/service.rs:161-166 | stored bytes that are no chunk are answered with the daemon's failure reply for the encoding error (through `map_err` at src/service.rs:133), not a decoding failure, and nothing changes |
| ServiceProperties.UseRegisters | src/service.rs:136-140 | `Use(t)` replies `Success`, registers `t`, and keeps all data including `t`'s |
| ServiceProperties.UseIdempotent | src/service.rs:136-140 | repeating `Use(t)` replies `Success` and changes nothing |
| ServiceProperties.TablesAfterUse | src/service.rs:136-145 | after `Use(t)`, `Tables` lists the previous registry plus `t` |
| ServiceProperties.StoreIdIsContentAddress | src/service.rs:153-158 | the id `Store` replies with depends only on the chunk, not on table, key or state |
| ServiceProperties.RetrieveAfterStore | src/service.rs:153-167 | `Retrieve(t,k)` right after `Store(t,k,c)` replies `Chunk(c)` |
| ServiceProperties.StoreFrame | src/service.rs:153-159 | after `Store(t,k,c)`, retrieving any other table or key gives what it gave before |
| ServiceProperties.RetrieveAbsent | src/service.rs:163-164 | a key not in a registered table is reported as `KeyAbsent` with that same key |
| ServiceProperties.CountAfterStore | src/service.rs:149-156 | a store adds one to the count for a new key and leaves it unchanged for an existing key |
| ServiceProperties.CountIsKeys | src/service.rs:147-151 | `Count(t)` on a registered table replies the number of keys its tree holds |
| ServiceProperties.StoreAddsKey | src/service.rs:153-158 | a store on a registered table adds its key to the tree's keys and keeps the table registered |
| ServiceProperties.CountOverwriteScenario | src/service.rs:149-156 | two stores under distinct keys into a new table count 2, and overwriting one of them still counts 2 |
| ServiceProperties.RunAllAppend | src/service.rs:95-118 | running `a + b` is running `a` then `b`: replies come back in request order |
| ServiceProperties.RunAllNthReply | src/service.rs:95-118 | the `i`-th reply answers the `i`-th message in the state the earlier messages left |
| ServiceProperties.DataNeverLost | src/service.rs:136-159 | no sequence of requests removes a key from a tree |
| ServiceProperties.KeyStaysAbsent | src/service.rs:153-166 | a key no message stores stays absent and is retrieved as `KeyAbsent` |
| ServiceProperties.ServeLoopMatchesRunAll | src/service.rs:95-118 | with no transport failure, the loop sends exactly the replies of a plain run, in order |
| ServiceProperties.ServeLoopIsRunAllPrefix | src/service.rs:95-118 | whatever the transport does, the replies sent are those a plain run gives for the first messages received, and the state is the state after them, or after one more message when its reply could not be sent |
| ServiceProperties.StoredBytesStayChunks | src/service.rs:156-165 | if every stored chunk came from a decoded request, the store holds only chunk bytes through any run, and retrieval from a registered table never fails |
| StoredService.StoreChunk | src/stored/service.rs:128-133 | `store` files the chunk under its own commitment, replies with that id, and changes nothing else; an unknown table fails without change |
| StoredService.RetrieveChunk | src/stored/service.rs:135-141 | `retrieve` gives the chunk, `ChunkAbsent` with the same id, an encoding error, or `UnknownTable` |
| StoredService.Run | src/stored/service.rs:104-126 | one message yields one reply, never changes the registry, and a `Failure` reply leaves the state untouched |
| StoredService.RunAll | src/stored/service.rs:90-100 | one reply per message, and the registry is the same at the end of a run |
| StoredService.RunAllSnoc | src/stored/service.rs:90-113 | a run over one more message is the run so far followed by one step in the state it left: replies answer messages in order, and each message's effect follows the earlier ones |
| StoredService.RetrieveByReturnedId | src/stored/service.rs:128-141 | retrieving by the id a store replied with gives back the stored chunk |
| StoredService.StoreTwice | src/stored/service.rs:129-132 | storing the same chunk twice returns the same id and the second store changes nothing |
| StoredService.UnknownTableRejected | src/stored/service.rs:129-136 | either request on an unregistered table replies the `UnknownTable` failure and changes nothing |
| StoredService.RetrieveUndecodableFails | src/stored/service.rs:135-140 | stored bytes that are no chunk are answered with the daemon's failure reply for the encoding error (through `map_err` at src/stored/service.rs:125), and nothing changes |
| StoredService.RetrieveAbsent | src/stored/service.rs:137-138 | an id not in a registered table is reported as `ChunkAbsent` with that id |
| StoredService.StoreFrame | src/stored/service.rs:128-133 | a store changes retrieval of no other table and no other id |
| StoredService.RegistryStaysConfigured | src/stored/service.rs:78-82 | no request adds tables, so the registry equals the configured set for a whole run |
| StoredService.ContentAddressingPreserved | src/stored/service.rs:130-131 | once every key is its bytes' commitment, every run keeps that so |
| StoredService.NeverStoredIsAbsent | src/stored/service.rs:137-138 | an id that no message stores stays absent through a run and is retrieved as `ChunkAbsent` |

## Left out

- Transport: the ZeroMQ session's receive and send, and message framing, are not modelled; a received message is its decoding result and a sent reply is a value. The loop gets transport failures as input (`Service.Exchange`).
- Byte layout: the strict encoding of requests and replies is generated code that is not visible; only the type tags are modelled, not serialisation or its round trip.
- Engine internals: opening the store, `open_tree`, `insert`, `get`, `len` and `flush` never fail in the model, and durability is not modelled (`flush` is a no-op). Engine I/O errors, which the source turns into error replies, are therefore absent. So "an erroring handler leaves the state untouched" (`Service.Dispatch`, `Service.RpcProcess`, `Service.Run`, `StoredService.Run`) holds only because the engine never fails: in the source, an `insert` that succeeds followed by a failed `flush` (src/service.rs:156-157) sends an error reply with the entry already written.
- Start-up failures (`sled::open` or an `open_tree` error aborting `init_db`) are not modelled; `Storage.InitDb` always succeeds.
- The commitment, chunk validity and the daemon error type's conversion into a reply are parameters (`Storage.Env`); `DaemonError` and its conversion are not part of this model, and `Storage.DaemonError` keeps only the two errors the handlers visibly raise.
- The older runtime's request and reply types live in an RPC crate that is not part of this model; `StoredService.Request` and `StoredService.Reply` hold only the variants its handlers use, and its decoding-error reply is assumed to be built as in rpc/src/reply.rs:67-74.
- The older runtime's service loop (src/stored/service.rs:87-113) is not modelled: no member runs `StoredService.Run` under transport failures, and `StoredService.RunAll` covers only a sequence of messages with no transport failure.
- Service.CountTable: the reply carries an unbounded count rather than a `u64`; the source converts the tree's `usize` length with `as u64`, which is lossless wherever `usize` is at most 64 bits.
- ServiceProperties.RetrieveAfterStore: the round trip assumes that `Chunk::try_from` accepts the bytes `as_ref()` wrote (src/service.rs:156,165); in the source this always holds because a request already carries a `storm::Chunk`, but `Primitives.Chunk` is any byte sequence, so the model states it as the hypothesis `env.isChunk(c.bytes)`. `ServiceProperties.StoredBytesStayChunks` carries the same assumption over whole runs.
- StoredService.RetrieveByReturnedId: the same assumption, for src/stored/service.rs:131,139: the round trip is proved only for chunks whose bytes pass `env.isChunk`.
- Replies.Reply: `Tables` and `Ids` payloads are sets; the ascending iteration order of `BTreeSet` matters only to serialisation, which is not modelled. The 32-byte width of `KeyAbsent`, chunk ids and keys is a subset type (`Primitives.Slice32`).
- The framework's failure code and server error (`rpc::FailureCode`, `ServerError`) have more variants than the two each that this code uses; only those are modelled.
- Set insertion, id listing and unknown-id filtering have no handlers in the runtime, although a `Reply::Ids` variant exists; they are not modelled.
- Configuration, path expansion, command-line parsing, the client wrapper, build scripts, data-directory constants and logging are outside the core.

=== FILE: error.dfy ===
/**
  The daemon's failure codes and their conversions into the generic RPC
  failure types of the microservice framework.
 */
module FailureCodes {
  import opened Primitives

  /** The daemon-specific failure code. */
  datatype FailureCode = Unknown | Database | Encoding

  /** The discriminant of each code, which is also its `u16` value. */
  function Discriminant(c: FailureCode): (v: u16)
    ensures c == Unknown <==> v == 0xFFF
    ensures c == Database <==> v == 0x01
    ensures c == Encoding <==> v == 0x02
  {
    match c
    case Unknown => 0xFFF
    case Database => 0x01
    case Encoding => 0x02
  }

  /** Decoding a code from a `u16`: every value, known discriminant or not, becomes `Unknown`. */
  function FromU16(v: u16): (c: FailureCode)
    ensures c == Unknown
  {
    Unknown
  }

  /** The display text of each code (the `Encoding` text keeps its spelling as written). */
  function Display(c: FailureCode): (text: string)
  {
    match c
    case Unknown => "unknown error"
    case Database => "internal database error"
    case Encoding => "internal encoding erorr"
  }

  /** The discriminants are pairwise distinct, so a `u16` value names at most one code. */
  lemma DiscriminantInjective(a: FailureCode, b: FailureCode)
    ensures Discriminant(a) == Discriminant(b) <==> a == b
  {
  }

  /** Decoding what encoding produced gives the code back only for `Unknown`. */
  lemma FromU16RoundTrip(c: FailureCode)
    ensures FromU16(Discriminant(c)) == c <==> c == Unknown
  {
  }

  /** The framework's failure code: either one of its own kinds or a service code. */
  datatype RpcFailureCode = Presentation | Other(code: FailureCode)

  /** The framework's failure value `rpc::Failure<FailureCode>`. */
  datatype RpcFailure = RpcFailure(code: RpcFailureCode, info: string)

  /** The client-side error `ServerError<FailureCode>`. */
  datatype ServerError = ServerFailure(failure: RpcFailure) | UnexpectedServerResponse

  /** Wrapping a service code as a framework failure code. */
  function ToRpcCode(c: FailureCode): (r: RpcFailureCode)
    ensures r.Other? && r.code == c
  {
    Other(c)
  }

  /** Turning a service code into a full failure: wrapped code plus display text. */
  function ToRpcFailure(c: FailureCode): (f: RpcFailure)
    ensures f.code == Other(c)
    ensures f.info == Display(c)
  {
    RpcFailure(ToRpcCode(c), Display(c))
  }

  /** Turning a service code into the client-side error. */
  function ToServerError(c: FailureCode): (e: ServerError)
    ensures e.ServerFailure? && e.failure.code == Other(c)
    ensures e.failure.info == Display(c)
  {
    ServerFailure(ToRpcFailure(c))
  }

  /** A failure built from a code names that code, so the conversion loses nothing. */
  lemma RpcFailureDeterminesCode(a: FailureCode, b: FailureCode)
    ensures ToRpcFailure(a) == ToRpcFailure(b) <==> a == b
  {
  }
}

=== FILE: primitives.dfy ===
/**
  Value types shared by the daemon and its RPC crate: bytes, fixed-width
  integers, the 32-byte slices used as keys and chunk ids, chunks, and the
  Rust-style `Result`/`Option` wrappers that model error returns.
 */
module Primitives {

  /** An octet, as stored by the embedded engine. */
  newtype byte = x: int | 0 <= x < 0x100

  /** Rust `u16`: the width of wire type tags and failure codes. */
  newtype u16 = x: int | 0 <= x < 0x1_0000

  /** `amplify::Slice32`: exactly 32 bytes. Primary keys and chunk ids are both of this shape. */
  type Slice32 = s: seq<byte> | |s| == 32 witness seq(32, _ => 0)

  /** A caller-chosen table key (`store_rpc::PrimaryKey`). */
  type PrimaryKey = Slice32

  /** The 32-byte commitment of a chunk (`storm::ChunkId`). */
  type ChunkId = Slice32

  /** A stored payload (`storm::Chunk`); `bytes` is what `as_ref()` hands to the engine. */
  datatype Chunk = Chunk(bytes: seq<byte>)

  datatype Result<+T, +E> = Ok(value: T) | Err(error: E)

  datatype Option<+T> = None | Some(value: T)
}

=== FILE: reply.dfy ===
/**
  The closed set of replies the daemon sends, their fixed wire type tags,
  the conversion of a decoding error into a reply, and the client-side
  classification of a reply into success or failure.
 */
module Replies {
  import opened Primitives
  import opened FailureCodes

  /** A reply message. `Tables` and `Ids` carry ordered sets, modelled as sets. */
  datatype Reply =
    | Success
    | Failure(failure: RpcFailure)
    | Tables(tables: set<string>)
    | Count(count: nat)
    | ChunkId(id: ChunkId)
    | Chunk(chunk: Chunk)
    | Ids(ids: set<ChunkId>)
    | KeyAbsent(key: Slice32)

  /** The name of a reply variant, without its payload. */
  datatype Variant = SuccessV | FailureV | TablesV | CountV | ChunkIdV | ChunkV | IdsV | KeyAbsentV

  function VariantOf(r: Reply): (v: Variant)
  {
    match r
    case Success => SuccessV
    case Failure(_) => FailureV
    case Tables(_) => TablesV
    case Count(_) => CountV
    case ChunkId(_) => ChunkIdV
    case Chunk(_) => ChunkV
    case Ids(_) => IdsV
    case KeyAbsent(_) => KeyAbsentV
  }

  /** The wire type tag of each variant. */
  function Tag(v: Variant): (t: u16)
  {
    match v
    case SuccessV => 0x0001
    case FailureV => 0x0000
    case TablesV => 0x00a1
    case CountV => 0x00a3
    case ChunkIdV => 0x0011
    case ChunkV => 0x0010
    case IdsV => 0x0013
    case KeyAbsentV => 0x0012
  }

  /** What a receiver does with a tag: name its variant, or reject an unknown tag. */
  function VariantOfTag(t: u16): (v: Option<Variant>)
    ensures v.Some? ==> Tag(v.value) == t
  {
    match t
    case 0x0001 => Some(SuccessV)
    case 0x0000 => Some(FailureV)
    case 0x00a1 => Some(TablesV)
    case 0x00a3 => Some(CountV)
    case 0x0011 => Some(ChunkIdV)
    case 0x0010 => Some(ChunkV)
    case 0x0013 => Some(IdsV)
    case 0x0012 => Some(KeyAbsentV)
    case _ => None
  }

  /** Every variant's tag reads back as that variant. */
  lemma TagRoundTrip(v: Variant)
    ensures VariantOfTag(Tag(v)) == Some(v)
  {
  }

  /** The eight tags are pairwise distinct: a tag determines its variant. */
  lemma TagInjective(a: Variant, b: Variant)
    ensures Tag(a) == Tag(b) <==> a == b
  {
    TagRoundTrip(a);
    TagRoundTrip(b);
  }

  /** The tag a reply is sent with reads back as that reply's variant, so replies of different variants carry different tags. */
  lemma ReplyTagIdentifiesVariant(a: Reply, b: Reply)
    ensures VariantOfTag(Tag(VariantOf(a))) == Some(VariantOf(a))
    ensures Tag(VariantOf(a)) == Tag(VariantOf(b)) <==> VariantOf(a) == VariantOf(b)
  {
    TagInjective(VariantOf(a), VariantOf(b));
    TagRoundTrip(VariantOf(a));
  }

  /** Exactly the eight listed tags are known. */
  lemma KnownTags(t: u16)
    ensures VariantOfTag(t).Some? <==> t in {0x0001, 0x0000, 0x00a1, 0x00a3, 0x0011, 0x0010, 0x0013, 0x0012}
  {
  }

  /** A failure to decode an incoming message, known only through its display text. */
  datatype PresentationError = PresentationError(text: string)

  /** A decoding error becomes a `Failure` with the framework's presentation code and the error's text. */
  function FromPresentation(e: PresentationError): (r: Reply)
    ensures r.Failure?
    ensures r.failure.code == Presentation
    ensures r.failure.info == e.text
  {
    Failure(RpcFailure(Presentation, e.text))
  }

  /** The client's classification of a reply to a request that expects no payload. */
  function SuccessOrFailure(r: Reply): (o: Result<(), ServerError>)
    ensures o.Ok? <==> r == Success
    ensures r.Failure? ==> o == Err(ServerFailure(r.failure))
    ensures !r.Success? && !r.Failure? ==> o == Err(UnexpectedServerResponse)
  {
    match r
    case Success => Ok(())
    case Failure(f) => Err(ServerFailure(f))
    case _ => Err(UnexpectedServerResponse)
  }

  /** A reply built from a service code is classified as the server error built from that code. */
  lemma FailureReplyClassified(c: FailureCode)
    ensures SuccessOrFailure(Failure(ToRpcFailure(c))) == Err(ToServerError(c))
  {
  }

  /** A decoding failure seen by the client surfaces as a server failure with the presentation code. */
  lemma PresentationReplyClassified(e: PresentationError)
    ensures SuccessOrFailure(FromPresentation(e)) == Err(ServerFailure(RpcFailure(Presentation, e.text)))
  {
  }
}

=== FILE: service.dfy ===
/**
  The daemon runtime: the table registry, the five request handlers, the
  dispatch of one decoded message to a handler, the conversion of every
  outcome into exactly one reply, and the receive/reply loop.
 */
module Service {
  import opened Primitives
  import opened Replies
  import opened Storage

  /** The requests the runtime dispatches on. */
  datatype Request =
    | Use(table: string)
    | Tables
    | Count(table: string)
    | Store(table: string, key: PrimaryKey, chunk: Chunk)
    | Retrieve(table: string, key: PrimaryKey)

  /** A received message after decoding: a request, or the reason it could not be decoded. */
  type Message = Result<Request, PresentationError>

  /** Registers `t`, creating its tree when the store lacks it; existing data is kept. */
  function UseTable(s: State, t: string): (r: Handled<Reply>)
    ensures r.result == Ok(Success)
    ensures r.state.trees == s.trees + {t}
    ensures r.state.db.Keys == s.db.Keys + {t}
    ensures forall u :: u in s.db ==> r.state.db[u] == s.db[u]
    ensures t !in s.db ==> r.state.db[t] == map[]
  {
    Handled(State(OpenTree(s.db, t), s.trees + {t}), Ok(Success))
  }

  /** Replies with the registered names. */
  function ListTables(s: State): (r: Result<Reply, DaemonError>)
    ensures r.Ok? && r.value.Tables?
    ensures forall u :: u in r.value.tables <==> u in s.trees
  {
    Ok(Reply.Tables(s.trees))
  }

  /** Replies with the number of distinct keys in a registered tree. */
  function CountTable(s: State, t: string): (r: Result<Reply, DaemonError>)
    requires Valid(s)
    ensures t !in s.trees ==> r == Err(UnknownTable(t))
    ensures t in s.trees ==> r.Ok? && r.value.Count? && r.value.count == |s.db[t].Keys|
  {
    if t !in s.trees then Err(UnknownTable(t))
    else Ok(Reply.Count(|s.db[t]|))
  }

  /**
    Writes the chunk's bytes under the caller's key and replies with the
    chunk's commitment, whatever the key. Only that one entry changes.
   */
  function StoreChunk(env: Env, s: State, t: string, k: PrimaryKey, c: Chunk): (r: Handled<Reply>)
    requires Valid(s)
    ensures t !in s.trees ==> r == Handled(s, Err(UnknownTable(t)))
    ensures t in s.trees ==>
      && r.result == Ok(Reply.ChunkId(env.commit(c.bytes)))
      && r.state.trees == s.trees
      && r.state.db.Keys == s.db.Keys
      && (forall u :: u in s.db && u != t ==> r.state.db[u] == s.db[u])
      && r.state.db[t].Keys == s.db[t].Keys + {k}
      && r.state.db[t][k] == c.bytes
      && (forall j :: j in s.db[t] && j != k ==> r.state.db[t][j] == s.db[t][j])
  {
    if t !in s.trees then Handled(s, Err(UnknownTable(t)))
    else
      var tree := s.db[t];
      Handled(State(s.db[t := tree[k := c.bytes]], s.trees), Ok(Reply.ChunkId(env.commit(c.bytes))))
  }

  /** Looks a key up: its chunk, `KeyAbsent` with the same key, or an encoding error for bytes that are no chunk. */
  function RetrieveChunk(env: Env, s: State, t: string, k: PrimaryKey): (r: Result<Reply, DaemonError>)
    requires Valid(s)
    ensures t !in s.trees ==> r == Err(UnknownTable(t))
    ensures t in s.trees && k !in s.db[t] ==> r == Ok(KeyAbsent(k))
    ensures t in s.trees && k in s.db[t] && env.isChunk(s.db[t][k]) ==> r == Ok(Reply.Chunk(Chunk.Chunk(s.db[t][k])))
    ensures t in s.trees && k in s.db[t] && !env.isChunk(s.db[t][k]) ==> r == Err(ChunkEncoding)
  {
    if t !in s.trees then Err(UnknownTable(t))
    else if k !in s.db[t] then Ok(KeyAbsent(k))
    else
      var data := s.db[t][k];
      if env.isChunk(data) then Ok(Reply.Chunk(Chunk.Chunk(data))) else Err(ChunkEncoding)
  }

  /** Routes a decoded request to its handler. */
  function Dispatch(env: Env, s: State, req: Request): (r: Handled<Reply>)
    requires Valid(s)
    ensures Valid(r.state)
    ensures s.trees <= r.state.trees
    ensures r.result.Err? ==> r.state == s
  {
    match req
    case Use(t) => UseTable(s, t)
    case Tables => Handled(s, ListTables(s))
    case Count(t) => Handled(s, CountTable(s, t))
    case Store(t, k, c) => StoreChunk(env, s, t, k, c)
    case Retrieve(t, k) => Handled(s, RetrieveChunk(env, s, t, k))
  }

  /** The state after one message and the reply, or the error reply, it produced. */
  datatype Processed = Processed(state: State, result: Result<Reply, Reply>)

  /**
    One message: a decoding failure becomes an error reply without reaching
    a handler; a handler error becomes an error reply through the daemon's
    error conversion.
   */
  function RpcProcess(env: Env, s: State, m: Message): (r: Processed)
    requires Valid(s)
    ensures m.Err? ==> r == Processed(s, Err(FromPresentation(m.error)))
    ensures r.result.Err? ==> r.state == s && r.result.error.Failure?
    ensures m.Ok? && Dispatch(env, s, m.value).result.Err? ==>
      r == Processed(s, Err(Reply.Failure(env.failureOf(Dispatch(env, s, m.value).result.error))))
  {
    match m
    case Err(e) => Processed(s, Err(FromPresentation(e)))
    case Ok(req) =>
      var h := Dispatch(env, s, req);
      match h.result
      case Ok(reply) => Processed(h.state, Ok(reply))
      case Err(e) => Processed(h.state, Err(Reply.Failure(env.failureOf(e))))
  }

  /** The state after one message and the one reply sent back for it. */
  datatype Step = Step(state: State, reply: Reply)

  /** Handles one received message; success and error alike yield exactly one reply. */
  function Run(env: Env, s: State, m: Message): (r: Step)
    requires Valid(s)
    ensures Valid(r.state)
    ensures s.trees <= r.state.trees
    ensures r.reply.Failure? ==> r.state == s
    ensures m.Err? ==> r == Step(s, FromPresentation(m.error))
  {
    var p := RpcProcess(env, s, m);
    match p.result
    case Ok(reply) => Step(p.state, reply)
    case Err(reply) => Step(p.state, reply)
  }

  /** The state after a sequence of messages and the replies, in order. */
  datatype Trace = Trace(state: State, replies: seq<Reply>)

  /** Handles messages one after another: one reply per message, and the registry never shrinks. */
  function RunAll(env: Env, s: State, ms: seq<Message>): (r: Trace)
    requires Valid(s)
    ensures |r.replies| == |ms|
    ensures Valid(r.state)
    ensures s.trees <= r.state.trees
    decreases ms
  {
    if |ms| == 0 then Trace(s, [])
    else
      var st := Run(env, s, ms[0]);
      var rest := RunAll(env, st.state, ms[1..]);
      Trace(rest.state, [st.reply] + rest.replies)
  }

  /** What can go wrong at the transport, ending the loop. */
  datatype TransportError = RecvFailed | SendFailed

  /** One round on the socket: a message received and whether its reply was sent, or a failed receive. */
  datatype Exchange = Exchange(message: Message, sent: bool) | RecvError

  predicate Delivered(x: Exchange)
  {
    x.Exchange? && x.sent
  }

  /** The messages received before the first failed receive, in the order they arrived. */
  function Received(xs: seq<Exchange>): (ms: seq<Message>)
    ensures |ms| <= |xs|
    ensures forall i :: 0 <= i < |ms| ==> xs[i].Exchange? && ms[i] == xs[i].message
    ensures (forall i :: 0 <= i < |xs| ==> xs[i].Exchange?) ==> |ms| == |xs|
    ensures |ms| < |xs| ==> xs[|ms|].RecvError?
    decreases xs
  {
    if |xs| == 0 || xs[0].RecvError? then []
    else [xs[0].message] + Received(xs[1..])
  }

  /** The loop's state, the replies it sent, and the transport error that stopped it, if any. */
  datatype LoopRun = LoopRun(state: State, sent: seq<Reply>, exit: Option<TransportError>)

  /**
    The service loop: run one message at a time until the transport fails.
    Only a failed receive or send ends it; every handled message is answered.
   */
  function ServeLoop(env: Env, s: State, xs: seq<Exchange>): (r: LoopRun)
    requires Valid(s)
    ensures Valid(r.state)
    ensures |r.sent| <= |xs|
    ensures forall i :: 0 <= i < |r.sent| ==> Delivered(xs[i])
    ensures r.exit.None? <==> forall i :: 0 <= i < |xs| ==> Delivered(xs[i])
    ensures r.exit.None? ==> |r.sent| == |xs|
    ensures r.exit.Some? ==> |r.sent| < |xs| && !Delivered(xs[|r.sent|])
    ensures r.exit == Some(RecvFailed) ==> xs[|r.sent|].RecvError?
    ensures r.exit == Some(SendFailed) ==> xs[|r.sent|].Exchange? && !xs[|r.sent|].sent
    decreases xs
  {
    if |xs| == 0 then LoopRun(s, [], None)
    else
      match xs[0]
      case RecvError => LoopRun(s, [], Some(RecvFailed))
      case Exchange(m, ok) =>
        var st := Run(env, s, m);
        if !ok then LoopRun(st.state, [], Some(SendFailed))
        else
          var rest := ServeLoop(env, st.state, xs[1..]);
          LoopRun(rest.state, [st.reply] + rest.sent, rest.exit)
  }
}

=== FILE: service_properties.dfy ===
/**
  Properties of the daemon runtime that relate several requests: the
  registry after start-up and after `Use`, the unknown-table error path,
  the store/retrieve round trip and its frame, key counting, reply order
  over a sequence of messages, and the service loop.
 */
module ServiceProperties {
  import opened Primitives
  import opened Replies
  import opened Storage
  import opened Service

  /** Right after start-up, `Tables` lists exactly the configured names. */
  lemma TablesAfterInit(env: Env, disk: Db, databases: set<string>)
    ensures Run(env, InitDb(disk, databases), Ok(Request.Tables)).reply == Reply.Tables(databases)
  {
  }

  /** `Count`, `Store` and `Retrieve` on an unregistered name fail with `UnknownTable(name)` and change nothing. */
  lemma UnknownTableRejected(env: Env, s: State, req: Request)
    requires Valid(s)
    requires req.Count? || req.Store? || req.Retrieve?
    requires req.table !in s.trees
    ensures Run(env, s, Ok(req)) == Step(s, Reply.Failure(env.failureOf(UnknownTable(req.table))))
  {
  }

  /** Stored bytes that do not form a chunk are answered with the daemon's failure for an encoding error, and nothing changes. */
  lemma RetrieveUndecodableFails(env: Env, s: State, t: string, k: PrimaryKey)
    requires Valid(s)
    requires t in s.trees && k in s.db[t] && !env.isChunk(s.db[t][k])
    ensures Run(env, s, Ok(Retrieve(t, k))) == Step(s, Reply.Failure(env.failureOf(ChunkEncoding)))
  {
  }

  /** `Use(t)` succeeds, adds `t` to the registry, and keeps every tree's data, `t`'s included. */
  lemma UseRegisters(env: Env, s: State, t: string)
    requires Valid(s)
    ensures var r := Run(env, s, Ok(Use(t)));
      && r.reply == Success
      && r.state.trees == s.trees + {t}
      && (forall u :: u in s.db ==> u in r.state.db && r.state.db[u] == s.db[u])
  {
  }

  /** A second `Use(t)` succeeds and changes nothing. */
  lemma UseIdempotent(env: Env, s: State, t: string)
    requires Valid(s)
    ensures var s1 := Run(env, s, Ok(Use(t))).state;
      Run(env, s1, Ok(Use(t))) == Step(s1, Success)
  {
  }

  /** After `Use(t)`, `Tables` lists the earlier registry plus `t`. */
  lemma TablesAfterUse(env: Env, s: State, t: string)
    requires Valid(s)
    ensures var s1 := Run(env, s, Ok(Use(t))).state;
      Run(env, s1, Ok(Request.Tables)).reply == Reply.Tables(s.trees + {t})
  {
  }

  /** The id `Store` replies with is the chunk's commitment, whichever table and key it was stored under. */
  lemma StoreIdIsContentAddress(env: Env, s1: State, t1: string, k1: PrimaryKey,
                                s2: State, t2: string, k2: PrimaryKey, c: Chunk)
    requires Valid(s1) && Valid(s2)
    requires t1 in s1.trees && t2 in s2.trees
    ensures Run(env, s1, Ok(Store(t1, k1, c))).reply == Run(env, s2, Ok(Store(t2, k2, c))).reply
    ensures Run(env, s1, Ok(Store(t1, k1, c))).reply == Reply.ChunkId(env.commit(c.bytes))
  {
  }

  /** `Retrieve(t, k)` right after `Store(t, k, c)` gives back `c`. */
  lemma RetrieveAfterStore(env: Env, s: State, t: string, k: PrimaryKey, c: Chunk)
    requires Valid(s)
    requires t in s.trees
    requires env.isChunk(c.bytes)
    ensures var s1 := Run(env, s, Ok(Store(t, k, c))).state;
      Run(env, s1, Ok(Retrieve(t, k))).reply == Reply.Chunk(c)
  {
  }

  /** `Store(t, k, c)` does not change what any other table or key retrieves. */
  lemma StoreFrame(env: Env, s: State, t: string, k: PrimaryKey, c: Chunk, t': string, k': PrimaryKey)
    requires Valid(s)
    requires t != t' || k != k'
    ensures var s1 := Run(env, s, Ok(Store(t, k, c))).state;
      Run(env, s1, Ok(Retrieve(t', k'))) == Step(s1, Run(env, s, Ok(Retrieve(t', k'))).reply)
  {
  }

  /** A key never stored in a registered table is reported absent, with the same key. */
  lemma RetrieveAbsent(env: Env, s: State, t: string, k: PrimaryKey)
    requires Valid(s)
    requires t in s.trees && k !in s.db[t]
    ensures Run(env, s, Ok(Retrieve(t, k))).reply == KeyAbsent(k)
  {
  }

  /** `Store` adds one to the count for a new key and leaves it unchanged for an existing key. */
  lemma CountAfterStore(env: Env, s: State, t: string, k: PrimaryKey, c: Chunk)
    requires Valid(s)
    requires t in s.trees
    ensures var before := Run(env, s, Ok(Request.Count(t))).reply;
      var after := Run(env, Run(env, s, Ok(Store(t, k, c))).state, Ok(Request.Count(t))).reply;
      && before.Count? && after.Count?
      && after.count == before.count + (if k in s.db[t] then 0 else 1)
  {
  }

  /** `Count(t)` on a registered table replies the number of keys its tree holds. */
  lemma CountIsKeys(env: Env, s: State, t: string)
    requires Valid(s)
    requires t in s.trees
    ensures Run(env, s, Ok(Request.Count(t))).reply == Reply.Count(|s.db[t].Keys|)
  {
  }

  /** `Store(t, k, c)` on a registered table adds `k` to its keys and keeps it registered. */
  lemma StoreAddsKey(env: Env, s: State, t: string, k: PrimaryKey, c: Chunk)
    requires Valid(s)
    requires t in s.trees
    ensures var s1 := Run(env, s, Ok(Store(t, k, c))).state;
      t in s1.trees && s1.db[t].Keys == s.db[t].Keys + {k}
  {
  }

  /**
    Two stores under distinct keys into a fresh table count two; a third
    store reusing one of the keys still counts two.
   */
  lemma CountOverwriteScenario(env: Env, s: State, t: string, k1: PrimaryKey, k2: PrimaryKey, a: Chunk, b: Chunk, c: Chunk)
    requires Valid(s)
    requires t !in s.db
    requires k1 != k2
    ensures var s1 := Run(env, s, Ok(Use(t))).state;
      var s2 := Run(env, s1, Ok(Store(t, k1, a))).state;
      var s3 := Run(env, s2, Ok(Store(t, k2, b))).state;
      var s4 := Run(env, s3, Ok(Store(t, k1, c))).state;
      && Run(env, s3, Ok(Request.Count(t))).reply == Reply.Count(2)
      && Run(env, s4, Ok(Request.Count(t))).reply == Reply.Count(2)
  {
    var s1 := Run(env, s, Ok(Use(t))).state;
    assert t in s1.trees && s1.db[t].Keys == {};
    StoreAddsKey(env, s1, t, k1, a);
    var s2 := Run(env, s1, Ok(Store(t, k1, a))).state;
    StoreAddsKey(env, s2, t, k2, b);
    var s3 := Run(env, s2, Ok(Store(t, k2, b))).state;
    StoreAddsKey(env, s3, t, k1, c);
    var s4 := Run(env, s3, Ok(Store(t, k1, c))).state;
    assert s3.db[t].Keys == s4.db[t].Keys == {k1, k2};
    assert |{k1, k2}| == 2;
    CountIsKeys(env, s3, t);
    CountIsKeys(env, s4, t);
  }

  /** Replies come back in request order: a run over `a + b` is the run over `a` followed by the run over `b`. */
  lemma {:induction false} RunAllAppend(env: Env, s: State, a: seq<Message>, b: seq<Message>)
    requires Valid(s)
    ensures var ra := RunAll(env, s, a);
      var rb := RunAll(env, ra.state, b);
      RunAll(env, s, a + b) == Trace(rb.state, ra.replies + rb.replies)
    decreases a
  {
    if |a| > 0 {
      var st := Run(env, s, a[0]);
      assert (a + b)[0] == a[0];
      assert (a + b)[1..] == a[1..] + b;
      RunAllAppend(env, st.state, a[1..], b);
    } else {
      assert a + b == b;
    }
  }

  /** The `i`-th reply of a run answers the `i`-th message, in the state the earlier messages left. */
  lemma RunAllNthReply(env: Env, s: State, ms: seq<Message>, i: nat)
    requires Valid(s)
    requires i < |ms|
    ensures var before := RunAll(env, s, ms[..i]);
      RunAll(env, s, ms).replies[i] == Run(env, before.state, ms[i]).reply
  {
    assert ms == ms[..i] + ms[i..];
    RunAllAppend(env, s, ms[..i], ms[i..]);
  }

  /** A run never deletes: every key held by a tree is still held after any messages. */
  lemma {:induction false} DataNeverLost(env: Env, s: State, ms: seq<Message>, t: string, k: PrimaryKey)
    requires Valid(s)
    requires t in s.db && k in s.db[t]
    ensures var f := RunAll(env, s, ms).state; t in f.db && k in f.db[t]
    decreases ms
  {
    if |ms| > 0 {
      DataNeverLost(env, Run(env, s, ms[0]).state, ms[1..], t, k);
    }
  }

  /** Whether a message asks to store under key `k` of table `t`. */
  predicate WritesKey(m: Message, t: string, k: PrimaryKey)
  {
    m.Ok? && m.value.Store? && m.value.table == t && m.value.key == k
  }

  /** A key no message stores stays absent, so retrieving it reports `KeyAbsent`. */
  lemma {:induction false} KeyStaysAbsent(env: Env, s: State, ms: seq<Message>, t: string, k: PrimaryKey)
    requires Valid(s)
    requires t !in s.db || k !in s.db[t]
    requires forall i :: 0 <= i < |ms| ==> !WritesKey(ms[i], t, k)
    ensures var f := RunAll(env, s, ms).state; t !in f.db || k !in f.db[t]
    ensures var f := RunAll(env, s, ms).state;
      t in f.trees ==> Run(env, f, Ok(Retrieve(t, k))).reply == KeyAbsent(k)
    decreases ms
  {
    if |ms| > 0 {
      assert !WritesKey(ms[0], t, k);
      KeyStaysAbsent(env, Run(env, s, ms[0]).state, ms[1..], t, k);
    }
  }

  /** With no transport failure, the loop answers every message exactly as a plain run does. */
  lemma {:induction false} ServeLoopMatchesRunAll(env: Env, s: State, xs: seq<Exchange>)
    requires Valid(s)
    requires forall i :: 0 <= i < |xs| ==> Delivered(xs[i])
    ensures var run := RunAll(env, s, Received(xs));
      ServeLoop(env, s, xs) == LoopRun(run.state, run.replies, None)
    decreases xs
  {
    if |xs| > 0 {
      assert Delivered(xs[0]);
      ServeLoopMatchesRunAll(env, Run(env, s, xs[0].message).state, xs[1..]);
    }
  }

  /** Every value the store holds is bytes that form a chunk. */
  ghost predicate ChunksValid(env: Env, s: State)
  {
    forall t, k :: t in s.db && k in s.db[t] ==> env.isChunk(s.db[t][k])
  }

  /** A decoded `Store` carries a chunk, so its bytes pass the chunk check. */
  predicate CarriesValidChunk(env: Env, m: Message)
  {
    m.Ok? && m.value.Store? ==> env.isChunk(m.value.chunk.bytes)
  }

  /**
    When every stored chunk came from a decoded request, the store only ever
    holds chunk bytes, and retrieving from a registered table never fails.
   */
  lemma {:induction false} StoredBytesStayChunks(env: Env, s: State, ms: seq<Message>, t: string, k: PrimaryKey)
    requires Valid(s)
    requires ChunksValid(env, s)
    requires forall i :: 0 <= i < |ms| ==> CarriesValidChunk(env, ms[i])
    ensures ChunksValid(env, RunAll(env, s, ms).state)
    ensures var f := RunAll(env, s, ms).state;
      t in f.trees ==> !Run(env, f, Ok(Retrieve(t, k))).reply.Failure?
    decreases ms
  {
    if |ms| > 0 {
      assert CarriesValidChunk(env, ms[0]);
      var s1 := Run(env, s, ms[0]).state;
      assert ChunksValid(env, s1);
      StoredBytesStayChunks(env, s1, ms[1..], t, k);
    }
  }

  /** A run over a message followed by more messages is one step followed by the run over the rest. */
  lemma RunAllCons(env: Env, s: State, m: Message, ms: seq<Message>)
    requires Valid(s)
    ensures var st := Run(env, s, m);
      var rest := RunAll(env, st.state, ms);
      RunAll(env, s, [m] + ms) == Trace(rest.state, [st.reply] + rest.replies)
  {
    assert ([m] + ms)[0] == m;
    assert ([m] + ms)[1..] == ms;
  }

  /**
    The loop's outcome `r` agrees with a plain run over the received
    messages `ms`: it sent the replies of its first `|r.sent|` messages, and
    its state is the state after them, or after one more when that message's
    reply could not be sent.
   */
  ghost predicate LoopAgreesWithRun(env: Env, s: State, ms: seq<Message>, r: LoopRun)
    requires Valid(s)
  {
    var n := |r.sent|;
    && n <= |ms|
    && r.sent == RunAll(env, s, ms[..n]).replies
    && (r.exit != Some(SendFailed) ==> r.state == RunAll(env, s, ms[..n]).state)
    && (r.exit == Some(SendFailed) ==> n < |ms| && r.state == RunAll(env, s, ms[..n + 1]).state)
  }

  /** One delivered message in front keeps the loop in agreement with the run. */
  lemma LoopAgreesStep(env: Env, s: State, m: Message, ms: seq<Message>, rest: LoopRun)
    requires Valid(s)
    requires LoopAgreesWithRun(env, Run(env, s, m).state, ms, rest)
    ensures LoopAgreesWithRun(env, s, [m] + ms, LoopRun(rest.state, [Run(env, s, m).reply] + rest.sent, rest.exit))
  {
    var n := |rest.sent|;
    assert ([m] + ms)[..n + 1] == [m] + ms[..n];
    RunAllCons(env, s, m, ms[..n]);
    if rest.exit == Some(SendFailed) {
      assert ([m] + ms)[..n + 2] == [m] + ms[..n + 1];
      RunAllCons(env, s, m, ms[..n + 1]);
    }
  }

  /**
    Up to a transport failure, the loop is a plain run: the replies it sent
    are those of the messages it answered, and its state is the state after
    them. A failed send loses the reply but keeps the message's effect.
   */
  lemma {:induction false} ServeLoopIsRunAllPrefix(env: Env, s: State, xs: seq<Exchange>)
    requires Valid(s)
    ensures var r := ServeLoop(env, s, xs);
      var ms := Received(xs);
      var n := |r.sent|;
      && n <= |ms|
      && r.sent == RunAll(env, s, ms[..n]).replies
      && (r.exit != Some(SendFailed) ==> r.state == RunAll(env, s, ms[..n]).state)
      && (r.exit == Some(SendFailed) ==> n < |ms| && r.state == RunAll(env, s, ms[..n + 1]).state)
    decreases xs
  {
    if |xs| == 0 || xs[0].RecvError? {
      assert ServeLoop(env, s, xs).sent == [];
      assert Received(xs)[..0] == [];
    } else {
      var m := xs[0].message;
      var st := Run(env, s, m);
      assert Received(xs) == [m] + Received(xs[1..]);
      if !xs[0].sent {
        assert ServeLoop(env, s, xs) == LoopRun(st.state, [], Some(SendFailed));
        assert Received(xs)[..1] == [m] + [];
        RunAllCons(env, s, m, []);
      } else {
        var rest := ServeLoop(env, st.state, xs[1..]);
        assert ServeLoop(env, s, xs) == LoopRun(rest.state, [st.reply] + rest.sent, rest.exit);
        ServeLoopIsRunAllPrefix(env, st.state, xs[1..]);
        LoopAgreesStep(env, s, m, Received(xs[1..]), rest);
      }
    }
  }
}

=== FILE: storage.dfy ===
/**
  The embedded engine as two separate pieces of state: the on-disk store,
  a map from tree name to tree contents, and the runtime's registry of
  opened trees. Opening a tree that already exists yields the same data,
  so the registry and the store are kept apart.

  The commitment function, the chunk validity check and the daemon's
  error-to-reply conversion are not visible and are parameters (`Env`).
 */
module Storage {
  import opened Primitives
  import opened FailureCodes

  /** One tree: a flat map from 32-byte keys to stored bytes. */
  type Table = map<PrimaryKey, seq<byte>>

  /** The whole on-disk store: every tree it holds, registered or not. */
  type Db = map<string, Table>

  /** Runtime state: the store and the names held in the runtime's `trees` registry. */
  datatype State = State(db: Db, trees: set<string>)

  /** Every registered name refers to a tree the store holds. */
  ghost predicate Valid(s: State)
  {
    s.trees <= s.db.Keys
  }

  /** Errors a handler returns; the conversion to a reply is `Env.failureOf`. */
  datatype DaemonError = UnknownTable(name: string) | ChunkEncoding

  /**
    What the model leaves abstract: the chunk commitment, the check that
    stored bytes form a chunk, and the conversion of a daemon error into a
    failure reply.
   */
  datatype Env = Env(
    commit: seq<byte> -> ChunkId,
    isChunk: seq<byte> -> bool,
    failureOf: DaemonError -> RpcFailure)

  /** A handler's outcome: the state after it ran and its result. */
  datatype Handled<+R> = Handled(state: State, result: Result<R, DaemonError>)

  /** Opening a tree: an existing tree keeps its data, a new name starts empty. */
  function OpenTree(db: Db, name: string): (d: Db)
    ensures d.Keys == db.Keys + {name}
    ensures forall u :: u in db ==> d[u] == db[u]
    ensures name !in db ==> d[name] == map[]
  {
    if name in db then db else db[name := map[]]
  }

  /**
    Start-up: open (or create) a tree for each configured name and register
    exactly those names. Trees already on disk keep their contents.
   */
  function InitDb(disk: Db, databases: set<string>): (s: State)
    ensures s.trees == databases
    ensures Valid(s)
    ensures s.db.Keys == disk.Keys + databases
    ensures forall u :: u in disk ==> s.db[u] == disk[u]
    ensures forall u :: u in databases && u !in disk ==> s.db[u] == map[]
  {
    State(map u | u in disk.Keys + databases :: if u in disk then disk[u] else map[], databases)
  }

  /** The registry after start-up is the configured set, however many trees were already on disk. */
  lemma InitRegistryIndependentOfDisk(a: Db, b: Db, databases: set<string>)
    ensures InitDb(a, databases).trees == InitDb(b, databases).trees == databases
  {
  }

  /** Opening the named trees one after another, in the order the configured set is iterated. */
  function OpenAll(db: Db, names: seq<string>): (d: Db)
    decreases names
  {
    if |names| == 0 then db else OpenAll(OpenTree(db, names[0]), names[1..])
  }

  /** Opening one name ahead of start-up is start-up with that name configured as well. */
  lemma InitAfterOpen(disk: Db, name: string, rest: set<string>)
    ensures InitDb(OpenTree(disk, name), rest).db == InitDb(disk, {name} + rest).db
  {
    var a := InitDb(OpenTree(disk, name), rest).db;
    var b := InitDb(disk, {name} + rest).db;
    assert a.Keys == b.Keys;
    forall u | u in a
      ensures a[u] == b[u]
    {
    }
  }

  /** Start-up's store does not depend on the order in which the configured names are opened. */
  lemma {:induction false} OpenAllMatchesInit(disk: Db, names: seq<string>)
    ensures OpenAll(disk, names) == InitDb(disk, set u | u in names).db
    decreases names
  {
    if |names| > 0 {
      var rest := names[1..];
      OpenAllMatchesInit(OpenTree(disk, names[0]), rest);
      InitAfterOpen(disk, names[0], set u | u in rest);
      assert (set u | u in names) == {names[0]} + (set u | u in rest) by {
        assert names == [names[0]] + rest;
      }
    }
  }
}

=== FILE: stored.dfy ===
/**
  The older, content-addressed runtime. It has no request that opens
  tables, and it files each chunk under its own commitment rather than a
  caller-chosen key. Its state is the same store-plus-registry pair as the
  newer runtime's.
 */
module StoredService {
  import opened Primitives
  import opened FailureCodes
  import opened Replies
  import opened Storage

  /** The requests this runtime dispatches on. */
  datatype Request =
    | Store(db: string, chunk: Chunk)
    | Retrieve(db: string, chunkId: ChunkId)

  /** The replies its handlers produce. */
  datatype Reply =
    | ChunkId(id: ChunkId)
    | Chunk(chunk: Chunk)
    | ChunkAbsent(id: ChunkId)
    | Failure(failure: RpcFailure)

  type Message = Result<Request, PresentationError>

  /** Files the chunk under its own commitment and replies with that id. */
  function StoreChunk(env: Env, s: State, db: string, c: Chunk): (r: Handled<Reply>)
    requires Valid(s)
    ensures db !in s.trees ==> r == Handled(s, Err(UnknownTable(db)))
    ensures db in s.trees ==>
      && r.result == Ok(Reply.ChunkId(env.commit(c.bytes)))
      && r.state.trees == s.trees
      && r.state.db.Keys == s.db.Keys
      && (forall u :: u in s.db && u != db ==> r.state.db[u] == s.db[u])
      && r.state.db[db].Keys == s.db[db].Keys + {env.commit(c.bytes)}
      && r.state.db[db][env.commit(c.bytes)] == c.bytes
      && (forall j :: j in s.db[db] && j != env.commit(c.bytes) ==> r.state.db[db][j] == s.db[db][j])
  {
    if db !in s.trees then Handled(s, Err(UnknownTable(db)))
    else
      var id := env.commit(c.bytes);
      var tree := s.db[db];
      Handled(State(s.db[db := tree[id := c.bytes]], s.trees), Ok(Reply.ChunkId(id)))
  }

  /** Looks an id up: its chunk, `ChunkAbsent` with the same id, or an encoding error. */
  function RetrieveChunk(env: Env, s: State, db: string, id: ChunkId): (r: Result<Reply, DaemonError>)
    requires Valid(s)
    ensures db !in s.trees ==> r == Err(UnknownTable(db))
    ensures db in s.trees && id !in s.db[db] ==> r == Ok(ChunkAbsent(id))
    ensures db in s.trees && id in s.db[db] && env.isChunk(s.db[db][id]) ==> r == Ok(Reply.Chunk(Chunk.Chunk(s.db[db][id])))
    ensures db in s.trees && id in s.db[db] && !env.isChunk(s.db[db][id]) ==> r == Err(ChunkEncoding)
  {
    if db !in s.trees then Err(UnknownTable(db))
    else if id !in s.db[db] then Ok(ChunkAbsent(id))
    else
      var data := s.db[db][id];
      if env.isChunk(data) then Ok(Reply.Chunk(Chunk.Chunk(data))) else Err(ChunkEncoding)
  }

  /** The state after one message and the one reply sent back for it. */
  datatype Step = Step(state: State, reply: Reply)

  /** One message handled into exactly one reply; no message touches the registry. */
  function Run(env: Env, s: State, m: Message): (r: Step)
    requires Valid(s)
    ensures Valid(r.state)
    ensures r.state.trees == s.trees
    ensures r.reply.Failure? ==> r.state == s
    ensures m.Err? ==> r == Step(s, Reply.Failure(RpcFailure(Presentation, m.error.text)))
  {
    match m
    case Err(e) => Step(s, Reply.Failure(RpcFailure(Presentation, e.text)))
    case Ok(req) =>
      var h := match req
        case Store(db, c) => StoreChunk(env, s, db, c)
        case Retrieve(db, id) => Handled(s, RetrieveChunk(env, s, db, id));
      match h.result
      case Ok(reply) => Step(h.state, reply)
      case Err(e) => Step(h.state, Reply.Failure(env.failureOf(e)))
  }

  /** The state after a sequence of messages and the replies, in order. */
  datatype Trace = Trace(state: State, replies: seq<Reply>)

  /** Handles messages one after another, one reply per message; the registry never changes. */
  function RunAll(env: Env, s: State, ms: seq<Message>): (r: Trace)
    requires Valid(s)
    ensures |r.replies| == |ms|
    ensures Valid(r.state)
    ensures r.state.trees == s.trees
    decreases ms
  {
    if |ms| == 0 then Trace(s, [])
    else
      var st := Run(env, s, ms[0]);
      var rest := RunAll(env, st.state, ms[1..]);
      Trace(rest.state, [st.reply] + rest.replies)
  }

  /**
    A run over one more message is the run so far followed by one step in
    the state it left: replies answer messages in order, and each message's
    effect is applied after the earlier ones.
   */
  lemma {:induction false} RunAllSnoc(env: Env, s: State, ms: seq<Message>, m: Message)
    requires Valid(s)
    ensures RunAll(env, s, []) == Trace(s, [])
    ensures var r := RunAll(env, s, ms);
      var st := Run(env, r.state, m);
      RunAll(env, s, ms + [m]) == Trace(st.state, r.replies + [st.reply])
    decreases ms
  {
    if |ms| == 0 {
      assert ms + [m] == [m];
      assert [m][1..] == [];
    } else {
      var s1 := Run(env, s, ms[0]);
      assert (ms + [m])[0] == ms[0];
      assert (ms + [m])[1..] == ms[1..] + [m];
      RunAllSnoc(env, s1.state, ms[1..], m);
    }
  }

  /** `Retrieve` by the id `Store` replied with gives the chunk back. */
  lemma RetrieveByReturnedId(env: Env, s: State, db: string, c: Chunk)
    requires Valid(s)
    requires db in s.trees
    requires env.isChunk(c.bytes)
    ensures var st := Run(env, s, Ok(Store(db, c)));
      && st.reply.ChunkId?
      && Run(env, st.state, Ok(Retrieve(db, st.reply.id))).reply == Reply.Chunk(c)
  {
  }

  /** Storing the same chunk twice returns the same id, and the second store changes nothing. */
  lemma StoreTwice(env: Env, s: State, db: string, c: Chunk)
    requires Valid(s)
    ensures var first := Run(env, s, Ok(Store(db, c)));
      Run(env, first.state, Ok(Store(db, c))) == first
  {
    if db in s.trees {
      var s1 := Run(env, s, Ok(Store(db, c))).state;
      var id := env.commit(c.bytes);
      var tree := s1.db[db];
      assert tree[id := c.bytes] == tree;
      assert s1.db[db := tree] == s1.db;
    }
  }

  /** A request naming an unregistered table fails with `UnknownTable` and changes nothing. */
  lemma UnknownTableRejected(env: Env, s: State, req: Request)
    requires Valid(s)
    requires req.db !in s.trees
    ensures Run(env, s, Ok(req)) == Step(s, Reply.Failure(env.failureOf(UnknownTable(req.db))))
  {
  }

  /** Stored bytes that do not form a chunk are answered with the daemon's failure for an encoding error, and nothing changes. */
  lemma RetrieveUndecodableFails(env: Env, s: State, db: string, id: ChunkId)
    requires Valid(s)
    requires db in s.trees && id in s.db[db] && !env.isChunk(s.db[db][id])
    ensures Run(env, s, Ok(Retrieve(db, id))) == Step(s, Reply.Failure(env.failureOf(ChunkEncoding)))
  {
  }

  /** An id that is not filed in a registered table is reported absent, with the same id. */
  lemma RetrieveAbsent(env: Env, s: State, db: string, id: ChunkId)
    requires Valid(s)
    requires db in s.trees && id !in s.db[db]
    ensures Run(env, s, Ok(Retrieve(db, id))).reply == ChunkAbsent(id)
  {
  }

  /** `Store` leaves every other table, and every other id of its own table, as retrieval sees it. */
  lemma StoreFrame(env: Env, s: State, db: string, c: Chunk, db': string, id: ChunkId)
    requires Valid(s)
    requires db != db' || id != env.commit(c.bytes)
    ensures var s1 := Run(env, s, Ok(Store(db, c))).state;
      Run(env, s1, Ok(Retrieve(db', id))) == Step(s1, Run(env, s, Ok(Retrieve(db', id))).reply)
  {
  }

  /** Every key in every table is the commitment of the bytes filed under it. */
  ghost predicate ContentAddressed(env: Env, s: State)
  {
    forall t, k :: t in s.db && k in s.db[t] ==> k == env.commit(s.db[t][k])
  }

  /** No request adds tables: the registry is the configured set for the whole run. */
  lemma RegistryStaysConfigured(env: Env, disk: Db, databases: set<string>, ms: seq<Message>)
    ensures RunAll(env, InitDb(disk, databases), ms).state.trees == databases
  {
  }

  /** Once every key is the commitment of its bytes, any run keeps it so. */
  lemma {:induction false} ContentAddressingPreserved(env: Env, s: State, ms: seq<Message>)
    requires Valid(s)
    requires ContentAddressed(env, s)
    ensures ContentAddressed(env, RunAll(env, s, ms).state)
    decreases ms
  {
    if |ms| > 0 {
      var s1 := Run(env, s, ms[0]).state;
      assert ContentAddressed(env, s1);
      ContentAddressingPreserved(env, s1, ms[1..]);
    }
  }

  /** Whether a message stores a chunk whose commitment is `id` into table `db`. */
  predicate StoresId(env: Env, m: Message, db: string, id: ChunkId)
  {
    m.Ok? && m.value.Store? && m.value.db == db && env.commit(m.value.chunk.bytes) == id
  }

  /** An id no message stores stays absent: retrieving it reports `ChunkAbsent`. */
  lemma {:induction false} NeverStoredIsAbsent(env: Env, s: State, ms: seq<Message>, db: string, id: ChunkId)
    requires Valid(s)
    requires db in s.trees && id !in s.db[db]
    requires forall i :: 0 <= i < |ms| ==> !StoresId(env, ms[i], db, id)
    ensures Run(env, RunAll(env, s, ms).state, Ok(Retrieve(db, id))).reply == ChunkAbsent(id)
    decreases ms
  {
    if |ms| > 0 {
      assert !StoresId(env, ms[0], db, id);
      NeverStoredIsAbsent(env, Run(env, s, ms[0]).state, ms[1..], db, id);
    }
  }
}
